=== FILE: README.md ===
# bedmap in Dafny

A model of the core of `bedmap`, a small Rust library that selects lines
from a text stream by line ranges read from a second stream:

- `parse_range` turns a token `N` or `N-M` into the half-open interval
  `[N, M + 1)` of 1-based line numbers, or fails with `RangeFormat` or
  `RangeParse`;
- `bed_map` is a merge iterator that walks the ranges and the numbered
  lines in lockstep and yields each line whose number lies in the pending
  range, or an error item (`RangeRead`, `RangeParse`, `RangeFormat`,
  `TargetRead`).

Modules, in dependency order:

| file | module | models |
|---|---|---|
| `wrappers.dfy` | `Wrappers` | `Option`, `Result` |
| `errors.dfy` | `Errors` | the `BedMapError` enum, payloads dropped |
| `decimal.dfy` | `Decimal` | `usize::from_str` on a 64-bit target |
| `split.dfy` | `DashSplit` | `str::split('-')`, with its inverse `Join` |
| `range_parse.dfy` | `RangeParse` | `parse_range`, as corrected and as written |
| `bed_map.dfy` | `BedMap` | the iterator: one `next` call (`Pull`), the whole output (`Run`), `collect` |
| `bed_map_order.dfy` | `BedMapOrder` | ordering and termination facts for any input |
| `bed_map_select.dfy` | `BedMapSelect` | the exact output when range starts never decrease and no read fails |
| `bed_map_examples.dfy` | `BedMapExamples` | the unit tests of `src/lib.rs` and the boundary cases |

The iterator's hidden state becomes an explicit `Cursor`. It holds how
many reads each source has delivered, the pending range and the pending
numbered line. `Pull` is one call of `next`, and the inner `loop` is its
recursion through three phases: `Pull`, `PullLine` and `Compare`. The two
inputs are sequences of reads, each either a line of text or an I/O
failure.

Three facts of the code shape the model:

- **Errors are not terminal.** `try_some!` (src/lib.rs:84-98) returns one
  error item and leaves its slot empty. The other slot keeps what it held
  (`BedMapOrder.PullKeepsOtherSlot`). The next call of `next` therefore
  reads the next token or the next line. `ParseErrorIsNotTerminal`,
  `RangeErrorKeepsLine` and `FailedReadMidStream` show an item after an
  error. Only `collect` stops
  at the first error.
- **A failed line read uses up a line number.** `enumerate` runs before
  the error is split off, so a failed read takes a number
  (`FailedReadTakesLineNumber`).
- **`fields.is_empty()` cannot hold.** A split always yields at least one
  field. The check is kept in `ParseBounds` in its source position.

## Model

| member | source | states |
|---|---|---|
| `Decimal.ParseUsize` | src/lib.rs:25 | a parsed number is at most `usize::MAX` and comes from non-empty text without a dash |
| `Decimal.ValueOfShowNat` | src/lib.rs:25 | the canonical decimal text of `n` has value `n` |
| `Decimal.ParseShowNat` | src/lib.rs:25 | printing any `usize` and parsing it back returns the same number |
| `Decimal.ParsePlusSign` | src/lib.rs:25 | one leading `+` does not change the parse |
| `DashSplit.Split` | src/lib.rs:19 | splitting yields at least one field, and exactly one iff the token has no dash |
| `DashSplit.SplitAfterDash` | src/lib.rs:19 | the text before the first dash is the first field, and the rest is split again |
| `DashSplit.JoinSplit` | src/lib.rs:19 | joining the fields with dashes gives back the token |
| `DashSplit.SplitJoin` | src/lib.rs:19 | splitting dash-free fields joined by dashes gives back the fields |
| `DashSplit.SplitFieldsHaveNoDash` | src/lib.rs:19 | no field contains a dash |
| `RangeParse.Fields` | src/lib.rs:19-20 | at most three fields: the head, then the tail when there is exactly one dash; three fields iff there are two or more dashes |
| `RangeParse.ParseBounds` | src/lib.rs:21-37 | accepted bounds satisfy `1 <= start <= end <= usize::MAX`; every failure is `RangeFormat` or `RangeParse` |
| `RangeParse.ParseRange` | src/lib.rs:18-40 | an accepted token gives a non-empty interval `1 <= start < end <= usize::MAX + 1`; the only errors are `RangeFormat` and `RangeParse` |
| `RangeParse.ParseRangeAsWritten` | src/lib.rs:39 | the as-written parser accepts exactly the tokens whose bounds check, and its end never exceeds `usize::MAX` |
| `RangeParse.AsWrittenOverflows` | src/lib.rs:35-39 | the token `usize::MAX` passes every check, but the as-written end wraps to 0, giving an empty interval; the corrected parser gives `[MAX, MAX + 1)` |
| `RangeParse.AsWrittenWraps` | src/lib.rs:39 | the two parsers agree on every error, and on every accepted token up to the end taken modulo `2^64` |
| `RangeParse.AsWrittenAgreesBelowMax` | src/lib.rs:39 | when the end stays below `2^64`, the two parsers agree |
| `RangeParse.ParseRangeSingle` | src/lib.rs:32-39 | for every `1 <= N <= usize::MAX`, `"N"` parses to `[N, N + 1)` |
| `RangeParse.ParseSingleText` | src/lib.rs:32-39 | any dash-free spelling of `N >= 1` parses to `[N, N + 1)` |
| `RangeParse.ParsePairText` | src/lib.rs:26-39 | two numbers `1 <= N <= M` around one dash parse to `[N, M + 1)`, whatever their spelling |
| `RangeParse.ParseRangePair` | src/lib.rs:26-39 | for every `1 <= N <= M <= usize::MAX`, `"N-M"` parses to `[N, M + 1)` |
| `RangeParse.ParseShowSpan` | src/lib.rs:18-40 | every interval the parser can return is printed as a token that parses back to it |
| `RangeParse.ParseRangeOk` | src/lib.rs:18-40 | a token parses to `[a, b)` iff `1 <= a < b`, and either it is one number `a` with `b = a + 1`, or it is two numbers `a` and `b - 1` around its first dash |
| `RangeParse.ParseRangeFormat` | src/lib.rs:21-37 | `RangeFormat` iff the head is empty, or there are extra fields, or (once the start parses) the tail is empty, the start is 0, or the end is below the start |
| `RangeParse.ParseRangeParse` | src/lib.rs:25-31 | `RangeParse` iff the field count is right and the start field, or a non-empty end field, is not a number |
| `RangeParse.ParseRangeAccepts` | src/lib.rs:44-45 | `"1-3"` gives `[1, 4)` and `"1"` gives `[1, 2)` |
| `RangeParse.ParseRangeRejectsFields` | src/lib.rs:46-48 | `"1-"`, `"-1"` and `""` are `RangeFormat` |
| `RangeParse.ParseRangeRejectsExtraField` | src/lib.rs:49-52 | `"1-2-3"` is `RangeFormat` |
| `RangeParse.ParseRangeRejectsBounds` | src/lib.rs:35-37 | `"0"` and `"5-3"` are `RangeFormat` |
| `RangeParse.ParseRangeRejectsNumbers` | src/lib.rs:53 | `"x"`, `"1-x"`, `"x-"` and `"0-x"` are `RangeParse`: the number check on the start comes before the structural checks on the end |
| `BedMap.Pull` | src/lib.rs:101-120 | one `next`: the cursor only moves forward; each item uses up a read or the pending line; `None` only when a needed source has run out; a text is the line just matched, inside the pending range (which `BedMapOrder.PullFromLastToken` ties to the last token read); an error leaves its slot empty with the offending read consumed (`BedMapOrder.PullKeepsOtherSlot` adds that the other slot is kept) |
| `BedMap.PullLine` | src/lib.rs:106-108 | the same guarantees once the range slot is full; a `TargetRead` item leaves the line slot empty with its line number used up (`BedMapOrder.PullLineSkipsNoFailure` shows that no failed read is passed over silently) |
| `BedMap.Compare` | src/lib.rs:109-119 | the same guarantees once both slots are full (`BedMapOrder.CompareKeepsOtherSlot` adds that a range error reached by dropping the range keeps the line) |
| `BedMap.Drain` | src/lib.rs:101-120 | the items from a state number at most the reads left plus the pending line; every text is a line of the lines source |
| `BedMap.Run` | src/lib.rs:64-121 | the iterator yields at most one item per read in total |
| `BedMap.Collect` | src/lib.rs:128-130 | `collect` succeeds iff every item is `Ok`, giving their texts in order; otherwise it gives the first error |
| `BedMapOrder.PullFromLastToken` | src/lib.rs:101-120 | for any input, `next` keeps the pending range equal to the span parsed from the last range token read; `cur_range` is set only at src/lib.rs:104 |
| `BedMapOrder.PullLineFromLastToken` | src/lib.rs:106-108 | the same invariant across reading a line |
| `BedMapOrder.GoodTokenFromLastToken` | src/lib.rs:103-104 | the same invariant when a token that parses becomes the pending range |
| `BedMapOrder.CompareFromLastToken` | src/lib.rs:109-119 | the same invariant across the comparison, which only ever clears the range slot |
| `BedMapOrder.EmitsInsideLastToken` | src/lib.rs:109-117 | for any input, a line that `next` yields has a number inside the span parsed from the last range token read, and is the text of that line |
| `BedMapOrder.PullSkipsNoFailure` | src/lib.rs:84-120 | for any input, one `next` never passes over a failed read or a malformed token without yielding it: every line and token it reads succeeded, except the single read whose failure is the error item it returns |
| `BedMapOrder.GoodTokenSkipsNoFailure` | src/lib.rs:103-104 | the same, when the token read parses to a span and the call goes on to read lines |
| `BedMapOrder.BadTokenSkipsNoFailure` | src/lib.rs:103-104 | when the token read fails to read or parse, the call yields exactly that token's error, moves past that one token, and leaves everything else, the line slot included, as it was |
| `BedMapOrder.PullLineSkipsNoFailure` | src/lib.rs:106-108 | the same, once the range slot is full: a failed line read ends the call as `TargetRead` |
| `BedMapOrder.CompareSkipsNoFailure` | src/lib.rs:109-119 | the same across the comparison, where every line dropped was a successful read |
| `BedMapOrder.PullKeepsOtherSlot` | src/lib.rs:84-120 | for any input, an error item empties only its own slot: after `TargetRead` the pending range is still there; after a range error the pending line is still there, or, if the call began without a range, the line slot is as the call found it |
| `BedMapOrder.GoodTokenKeepsOtherSlot` | src/lib.rs:103-104 | the same, when the token read parses and the call goes on to read lines |
| `BedMapOrder.PullLineKeepsOtherSlot` | src/lib.rs:106-108 | the same, once the range slot is full: a range error can then only leave the line slot full |
| `BedMapOrder.CompareKeepsOtherSlot` | src/lib.rs:109-119 | the same across the comparison: dropping the range keeps the line that ended it |
| `BedMapOrder.ExhaustedStaysExhausted` | src/lib.rs:102-108 | from an exhausted state, `next` returns `None` and changes nothing |
| `BedMapOrder.PullAfterNone` | src/lib.rs:101-108 | once `next` has returned `None`, the next call returns `None` and leaves the state as it is |
| `BedMapOrder.DrainIsSubsequence` | src/lib.rs:106-119 | for any input, sorted or not, the texts yielded come from strictly increasing line positions, from the first line not yet passed: an in-order subsequence with no line repeated |
| `BedMapSelect.SelectFromPassed` | src/lib.rs:111-113 | a range ending at or before the current line number selects nothing further, so dropping it changes nothing |
| `BedMapSelect.NotCoveredBefore` | src/lib.rs:119 | a line before the start of the first of some ranges whose starts never decrease lies in none of them |
| `BedMapSelect.PullOnWellFormed` | src/lib.rs:101-120 | on well-formed input, `next` yields the first pending selected line and keeps the rest pending, or yields `None` when none is pending |
| `BedMapSelect.PullLineOnWellFormed` | src/lib.rs:106-108 | the same, from the phase that fills the line slot |
| `BedMapSelect.CompareOnWellFormed` | src/lib.rs:109-119 | the same, from the comparison of a line number against the range |
| `BedMapSelect.DrainOnWellFormed` | src/lib.rs:101-120 | on well-formed input, draining from any tracked state yields exactly the pending selection, as `Ok` items |
| `BedMapSelect.SelectsCoveredLines` | src/lib.rs:56-63 | for tokens that parse to ranges whose starts never decrease (they may overlap) and lines that all read, the output is exactly the lines whose number lies in some range, in line order, with no error |
| `BedMapExamples.CollectOks` | src/lib.rs:128-130 | collecting error-free items gives their texts |
| `BedMapExamples.TokenX` | src/lib.rs:53 | `"x"` is `RangeParse` |
| `BedMapExamples.Token4To6` | src/lib.rs:126 | `"4-6"` gives `[4, 7)` |
| `BedMapExamples.TestSelection` | src/lib.rs:126-131 | the reference selection of the test's ranges over `a`..`h` is `b d e f h` |
| `BedMapExamples.SourceTestRun` | src/lib.rs:123-133 | ranges `2`, `4-6`, `8` over lines `a`..`h` yield `b`, `d`, `e`, `f`, `h` and no error |
| `BedMapExamples.SourceTest` | src/lib.rs:123-133 | collecting that run gives `["b", "d", "e", "f", "h"]` |
| `BedMapExamples.AbuttingRanges` | src/lib.rs:111-117 | abutting ranges `1-2`, `3-4` yield lines 1 to 4 once each |
| `BedMapExamples.OverlappingRanges` | src/lib.rs:109-119 | overlapping ranges `1-3`, `2-4` over `a`..`e` yield lines 1 to 4 once each |
| `BedMapExamples.SingleLineSource` | src/lib.rs:115-117 | range `1` over a one-line source yields that line |
| `BedMapExamples.RangeBeyondLines` | src/lib.rs:106-108 | a range starting past the last line yields nothing and no error |
| `BedMapExamples.ParseErrorPulls` | src/lib.rs:103-104 | over ranges `x`, `2`: the first `next` is `RangeParse` with the range slot empty; the second reads `2` and yields line 2 |
| `BedMapExamples.ParseErrorIsNotTerminal` | src/lib.rs:84-104 | a malformed token is one error item followed by further items, and `collect` gives that error |
| `BedMapExamples.RangeErrorKeepsLinePulls` | src/lib.rs:101-119 | over ranges `1`, `x`, `2` and lines `a`, `b`: `a`, then `RangeParse` with line `b` still pending, then `b`, then `None` |
| `BedMapExamples.RangeErrorKeepsLine` | src/lib.rs:101-119 | that run is `a`, `RangeParse`, `b`: the malformed token does not lose the pending line |
| `BedMapExamples.FailedReadTakesLineNumber` | src/lib.rs:76-79 | with range `4` and a failed second read, the items are `TargetRead` then the fourth read's text |
| `BedMapExamples.MidStreamPulls` | src/lib.rs:106-117 | under `1-5`, the five `next` calls over `a`, `b`, a failed read and `d` |
| `BedMapExamples.FailedReadMidStream` | src/lib.rs:106-117 | the earlier lines, one `TargetRead`, then `d`; `collect` gives `TargetRead` |

## Findings

| source | as written | input that shows it | evidently intended | confidence | as-written member | corrected member |
|---|---|---|---|---|---|---|
| src/lib.rs:39 | `Ok((start, end + 1))` on `usize`: for `end == usize::MAX`, the addition overflows. A debug build panics; a release build wraps to `(MAX, 0)`, an empty interval that selects nothing | the token `18446744073709551615` on a 64-bit target | the token names line `usize::MAX`, so the interval should be `[MAX, MAX + 1)`, or the token should be rejected | not executed | `RangeParse.AsWrittenOverflows` | `RangeParse.ParseRangeSingle` |

The rest of the model uses the corrected `RangeParse.ParseRange`, whose
exclusive end is an unbounded `nat`. `RangeParse.ParseShowSpan` proves the
round trip for every interval up to `[MAX, MAX + 1)`.

## Left out

- Byte streams, `BufReader`, line splitting and UTF-8 decoding are left out. Each source is a sequence of reads, each read either a line or an I/O failure; a line that is not valid UTF-8 is one such failure.
- A source, once at its end, is assumed to stay there. A reader that yields lines again after an end of file is not modelled.
- Error payloads (`std::io::Error`, `ParseIntError`) and the `thiserror` messages are left out. `BedMapError` keeps only the variant.
- Laziness and single-pass consumption are not modelled directly. `Pull` is a pure function of an explicit cursor, and `Run` gives the whole output at once.
- The line counter `nline + 1` (src/lib.rs:77) is an unbounded `nat`; it cannot overflow within any input that fits in memory.
- `usize` is taken to be 64 bits wide; on a 32-bit target, `USIZE_MAX` would be `2^32 - 1`.
- examples/bedmap.rs, the command-line wrapper, is left out: it only opens two files, prints the items and exits on an error.
- BedMapSelect.SelectsCoveredLines: the exact output is stated only for ranges whose starts never decrease and reads that never fail. The merge relies on that order: a line below the pending range is dropped for good (src/lib.rs:119), which loses nothing only when no later range starts lower. The doc comment at src/lib.rs:56-63 states only the token format, not this order. For other inputs, `BedMapOrder.DrainIsSubsequence`, `BedMapOrder.EmitsInsideLastToken`, `BedMapOrder.PullSkipsNoFailure` and `BedMap.Pull` state what holds.
- BedMap.Pull: its own contract does not say that an error item leaves the other slot in place. That is `BedMapOrder.KeepsOtherSlot`, proved by `BedMapOrder.PullKeepsOtherSlot` for every input.
- BedMap.PullLine: the same frame is proved separately, by `BedMapOrder.PullLineKeepsOtherSlot`.
- BedMap.Compare: the same frame is proved separately, by `BedMapOrder.CompareKeepsOtherSlot`.
- BedMap.Pull: its own contract does not say that the pending range came from the last token read. That is the separate invariant `BedMapOrder.FromLastToken`, which `BedMapOrder.PullFromLastToken` proves `next` preserves and `Start` meets trivially. Folding it into `Valid` would make every use of `Valid` unfold the whole parser.

=== FILE: bed_map.dfy ===
/** The merge iterator of `bed_map` (src/lib.rs:64-121).

    Both inputs are modelled as already-split sequences of reads, each read
    being a line of text or an I/O failure.  The iterator's state is an
    explicit cursor: how many reads each source has delivered, plus the
    pending range and the pending numbered line.  `Pull` is one call of the
    iterator's `next`, the inner `loop` being its recursion. */
module BedMap {
  import opened Wrappers
  import opened Errors
  import opened RangeParse

  /** One read from a line-oriented source. */
  datatype ReadResult = Read(text: string) | IoErr

  /** The ranges source and the lines source, one entry per read. */
  datatype Sources = Sources(ranges: seq<ReadResult>, lines: seq<ReadResult>)

  /** A line paired with its 1-based position in the lines source. */
  datatype NumberedLine = NumberedLine(num: nat, text: string)

  /** `rpos`/`lpos` count the reads delivered so far by each source;
      `curRange` and `curLine` are the source's `cur_range` and `cur_line`. */
  datatype Cursor = Cursor(rpos: nat, lpos: nat, curRange: Option<Span>, curLine: Option<NumberedLine>)

  /** What the iterator yields when it yields something. */
  type Item = Result<string, BedMapError>

  /** The state `bed_map` starts from: nothing read, both slots empty. */
  const Start: Cursor := Cursor(0, 0, None, None)

  /** A pending range is a non-empty interval of positive line numbers,
      and a pending line is the last line read, numbered by its read
      count.  That the pending range is the span of the last token read is
      the separate invariant `FromLastToken`. */
  predicate Valid(src: Sources, c: Cursor) {
    && c.rpos <= |src.ranges|
    && c.lpos <= |src.lines|
    && (c.curRange.Some? ==>
          && 1 <= c.rpos
          && 1 <= c.curRange.value.start < c.curRange.value.end)
    && (c.curLine.Some? ==>
          && 1 <= c.lpos
          && c.curLine.value.num == c.lpos
          && src.lines[c.lpos - 1] == Read(c.curLine.value.text))
  }

  /** The number of the first line not yet discarded or emitted. */
  function NextLineNo(c: Cursor): nat {
    if c.curLine.Some? then c.lpos else c.lpos + 1
  }

  /** Reads still to come plus the pending line: an upper bound on the
      number of items the iterator can still yield. */
  function Budget(src: Sources, c: Cursor): nat
    requires Valid(src, c)
  {
    (|src.ranges| - c.rpos) + (|src.lines| - c.lpos) + (if c.curLine.Some? then 1 else 0)
  }

  /** The termination measure of the inner loop: every turn that does not
      return either reads or drops something. */
  function LoopMeasure(src: Sources, c: Cursor): nat
    requires Valid(src, c)
  {
    2 * (|src.ranges| - c.rpos) + (if c.curRange.Some? then 1 else 0)
    + 2 * (|src.lines| - c.lpos) + (if c.curLine.Some? then 1 else 0)
  }

  /** The state after the iterator returned `None`: a needed source has no
      more reads and the slot it would fill is empty. */
  predicate Exhausted(src: Sources, c: Cursor) {
    || (c.curRange.None? && c.rpos == |src.ranges|)
    || (c.curRange.Some? && c.curLine.None? && c.lpos == |src.lines|)
  }

  /** The state after yielding the text `t`: line number `lpos` holds `t`,
      lies in the pending range, and has left the line slot. */
  predicate Emitted(src: Sources, c: Cursor, t: string) {
    && c.curLine.None?
    && c.curRange.Some?
    && c.curRange.value.Contains(c.lpos)
    && 1 <= c.lpos <= |src.lines|
    && src.lines[c.lpos - 1] == Read(t)
  }

  /** The state after yielding the error `e`: the read or token that caused
      it has been consumed and its slot is left empty. */
  predicate ErrorLeft(src: Sources, c: Cursor, e: BedMapError) {
    if e == TargetRead then
      c.curLine.None? && 1 <= c.lpos <= |src.lines| && src.lines[c.lpos - 1].IoErr?
    else
      c.curRange.None? && 1 <= c.rpos <= |src.ranges| && TokenSpan(src.ranges[c.rpos - 1]) == Err(e)
  }

  /** `try_some!(ranges.next(), RangeRead)?` followed by
      `try_some!(Some(parse_range(&r)))`: the span of one range read, or
      the error item it turns into. */
  function TokenSpan(read: ReadResult): (r: Result<Span, BedMapError>)
    ensures r.Ok? ==> 1 <= r.value.start < r.value.end
    ensures r.Err? ==> r.error != TargetRead
  {
    match read
    case IoErr => Err(RangeRead)
    case Read(token) => ParseRange(token)
  }

  /** What one call of `next` guarantees, from state `c` to `r.0` with
      yield `r.1`: the cursor only moves forward, each yielded item uses up
      at least one read or the pending line, `None` comes only from an
      exhausted source, a text is the line just matched, and an error
      leaves its slot empty with the offending read consumed. */
  predicate Pulled(src: Sources, c: Cursor, r: (Cursor, Option<Item>))
    requires Valid(src, c)
  {
    && Valid(src, r.0)
    && c.rpos <= r.0.rpos && NextLineNo(c) <= NextLineNo(r.0)
    && Budget(src, r.0) <= Budget(src, c)
    && (r.1.Some? ==> Budget(src, r.0) < Budget(src, c))
    && (r.1.None? ==> Exhausted(src, r.0))
    && (r.1.Some? && r.1.value.Ok? ==>
          Emitted(src, r.0, r.1.value.value) && NextLineNo(c) <= r.0.lpos)
    && (r.1.Some? && r.1.value.Err? ==> ErrorLeft(src, r.0, r.1.value.error))
  }

  /** One call of the iterator's `next`.  The source's loop body has three
      phases; `Pull` is the first (fill the range slot), `PullLine` the
      second (fill the line slot) and `Compare` the third. */
  function Pull(src: Sources, c: Cursor): (r: (Cursor, Option<Item>))
    requires Valid(src, c)
    ensures Pulled(src, c, r)
    decreases LoopMeasure(src, c), 2
  {
    if c.curRange.Some? then PullLine(src, c)
    else if c.rpos == |src.ranges| then (c, None)
    else
      var c1 := c.(rpos := c.rpos + 1);
      match TokenSpan(src.ranges[c.rpos])
      case Err(e) => (c1, Some(Err(e)))
      case Ok(span) =>
        var c2 := c1.(curRange := Some(span));
        var r := PullLine(src, c2);
        PulledThrough(src, c, c2, r);
        r
  }

  /** The second phase: the range slot is full. */
  function PullLine(src: Sources, c: Cursor): (r: (Cursor, Option<Item>))
    requires Valid(src, c) && c.curRange.Some?
    ensures Pulled(src, c, r)
    decreases LoopMeasure(src, c), 1
  {
    if c.curLine.Some? then Compare(src, c)
    // `try_some!(targets.next(), TargetRead)?`; the number counts every read
    else if c.lpos == |src.lines| then (c, None)
    else
      var c1 := c.(lpos := c.lpos + 1);
      match src.lines[c.lpos]
      case IoErr => (c1, Some(Err(TargetRead)))
      case Read(text) =>
        var c2 := c1.(curLine := Some(NumberedLine(c.lpos + 1, text)));
        var r := Compare(src, c2);
        PulledThrough(src, c, c2, r);
        r
  }

  /** The third phase: both slots are full. */
  function Compare(src: Sources, c: Cursor): (r: (Cursor, Option<Item>))
    requires Valid(src, c) && c.curRange.Some? && c.curLine.Some?
    ensures Pulled(src, c, r)
    decreases LoopMeasure(src, c), 0
  {
    var span, line := c.curRange.value, c.curLine.value;
    if line.num >= span.end then
      var r := Pull(src, c.(curRange := None));
      PulledThrough(src, c, c.(curRange := None), r);
      r
    else if line.num >= span.start then (c.(curLine := None), Some(Ok(line.text)))
    else
      var r := Pull(src, c.(curLine := None));
      PulledThrough(src, c, c.(curLine := None), r);
      r
  }

  /** A pull that starts from a state `c2` reached from `c` without
      yielding counts as a pull from `c`. */
  lemma PulledThrough(src: Sources, c: Cursor, c2: Cursor, r: (Cursor, Option<Item>))
    requires Valid(src, c) && Valid(src, c2) && Pulled(src, c2, r)
    requires c.rpos <= c2.rpos && NextLineNo(c) <= NextLineNo(c2)
    requires Budget(src, c2) <= Budget(src, c)
    ensures Pulled(src, c, r)
  {
  }

  /** Every item the iterator yields from `c` on, until its first `None`. */
  function Drain(src: Sources, c: Cursor): (items: seq<Item>)
    requires Valid(src, c)
    ensures |items| <= Budget(src, c)
    ensures forall i :: 0 <= i < |items| && items[i].Ok? ==> Read(items[i].value) in src.lines
    decreases Budget(src, c)
  {
    var (c1, next) := Pull(src, c);
    match next
    case None => []
    case Some(item) => [item] + Drain(src, c1)
  }

  /** One pull's worth of `Drain`: `None` ends it, an item heads it. */
  lemma DrainStep(src: Sources, c: Cursor)
    requires Valid(src, c)
    ensures var r := Pull(src, c);
      && Pulled(src, c, r)
      && (r.1.None? ==> Drain(src, c) == [])
      && (r.1.Some? ==> Drain(src, c) == [r.1.value] + Drain(src, r.0))
  {
  }

  /** The whole output of `bed_map(ranges, lines)`. */
  function Run(src: Sources): (items: seq<Item>)
    ensures |items| <= |src.ranges| + |src.lines|
  {
    Drain(src, Start)
  }

  /** `collect::<Result<Vec<String>, BedMapError>>()`: the texts, or the
      first error, after which nothing more is pulled. */
  function Collect(items: seq<Item>): (r: Result<seq<string>, BedMapError>)
    ensures r.Ok? <==> forall i :: 0 <= i < |items| ==> items[i].Ok?
    ensures r.Ok? ==>
      && |r.value| == |items|
      && forall i :: 0 <= i < |items| ==> items[i] == Ok(r.value[i])
    ensures r.Err? ==>
      exists i :: 0 <= i < |items| && items[i] == Err(r.error)
        && forall j :: 0 <= j < i ==> items[j].Ok?
  {
    if |items| == 0 then Ok([])
    else if items[0].Err? then Err(items[0].error)
    else
      match Collect(items[1..])
      case Ok(rest) => Ok([items[0].value] + rest)
      case Err(e) => assert items[1..][0] == items[1]; Err(e)
  }
}

=== FILE: bed_map_examples.dfy ===
/** Concrete runs of `bed_map`: the source's own test, abutting ranges, the
    boundaries, and the behaviour of error items. */
module BedMapExamples {
  import opened Wrappers
  import opened Errors
  import opened RangeParse
  import opened BedMap
  import opened BedMapSelect

  lemma CollectOks(texts: seq<string>)
    ensures Collect(AsOks(texts)) == Ok(texts)
  {
    var r := Collect(AsOks(texts));
    assert r.Ok?;
    assert r.value == texts;
  }

  lemma TokenX()
    ensures ParseRange("x") == Err(RangeParse)
  {
    ParseRangeParse("x");
  }

  lemma Token4To6()
    ensures ParseRange("4-6") == Ok(Span(4, 7))
  {
    ParsePairText("4", "6", 4, 6);
    assert "4-6" == "4" + "-" + "6";
  }

  lemma Token1To5()
    ensures ParseRange("1-5") == Ok(Span(1, 6))
  {
    ParsePairText("1", "5", 1, 5);
    assert "1-5" == "1" + "-" + "5";
  }

  lemma Token1To2()
    ensures ParseRange("1-2") == Ok(Span(1, 3))
  {
    ParsePairText("1", "2", 1, 2);
    assert "1-2" == "1" + "-" + "2";
  }

  lemma Token3To4()
    ensures ParseRange("3-4") == Ok(Span(3, 5))
  {
    ParsePairText("3", "4", 3, 4);
    assert "3-4" == "3" + "-" + "4";
  }

  lemma TestSelection()
    ensures Selection(["a", "b", "c", "d", "e", "f", "g", "h"], [Span(2, 3), Span(4, 7), Span(8, 9)])
         == ["b", "d", "e", "f", "h"]
  {
  }

  /** The run of the test of src/lib.rs: ranges `2`, `4-6`, `8` over
      lines `a`..`h` yield `b`, `d`, `e`, `f`, `h` and no error. */
  lemma SourceTestRun()
    ensures Run(Sources(AsReads(["2", "4-6", "8"]), AsReads(["a", "b", "c", "d", "e", "f", "g", "h"]))) == AsOks(["b", "d", "e", "f", "h"])
  {
    var tokens := ["2", "4-6", "8"];
    var texts := ["a", "b", "c", "d", "e", "f", "g", "h"];
    var spans := [Span(2, 3), Span(4, 7), Span(8, 9)];
    ParseSingleText("2", 2);
    ParseSingleText("8", 8);
    Token4To6();
    assert tokens[0] == "2" && tokens[1] == "4-6" && tokens[2] == "8";
    assert forall i :: 0 <= i < |tokens| ==> ParseRange(tokens[i]) == Ok(spans[i]);
    SelectsCoveredLines(tokens, texts, spans);
    TestSelection();
  }

  /** The assertion of that test: collecting the run gives the five lines. */
  lemma SourceTest()
    ensures Collect(Run(Sources(AsReads(["2", "4-6", "8"]), AsReads(["a", "b", "c", "d", "e", "f", "g", "h"])))) == Ok(["b", "d", "e", "f", "h"])
  {
    var tokens := ["2", "4-6", "8"];
    var texts := ["a", "b", "c", "d", "e", "f", "g", "h"];
    SourceTestRun();
    CollectOks(["b", "d", "e", "f", "h"]);
  }

  lemma AbuttingSelection()
    ensures Selection(["a", "b", "c", "d", "e"], [Span(1, 3), Span(3, 5)]) == ["a", "b", "c", "d"]
  {
  }

  /** Abutting ranges `1-2` and `3-4` emit lines 1 to 4 once each. */
  lemma AbuttingRanges()
    ensures Run(Sources(AsReads(["1-2", "3-4"]), AsReads(["a", "b", "c", "d", "e"]))) == AsOks(["a", "b", "c", "d"])
  {
    var tokens := ["1-2", "3-4"];
    var texts := ["a", "b", "c", "d", "e"];
    var spans := [Span(1, 3), Span(3, 5)];
    Token1To2();
    Token3To4();
    assert tokens[0] == "1-2" && tokens[1] == "3-4";
    assert forall i :: 0 <= i < |tokens| ==> ParseRange(tokens[i]) == Ok(spans[i]);
    SelectsCoveredLines(tokens, texts, spans);
    AbuttingSelection();
  }

  lemma Token2To4()
    ensures ParseRange("2-4") == Ok(Span(2, 5))
  {
    ParsePairText("2", "4", 2, 4);
    assert "2-4" == "2" + "-" + "4";
  }

  lemma OverlappingSelection()
    ensures Selection(["a", "b", "c", "d", "e"], [Span(1, 4), Span(2, 5)]) == ["a", "b", "c", "d"]
  {
  }

  /** Overlapping ranges `1-3` and `2-4` emit lines 1 to 4 once each: the
      union, with no line repeated. */
  lemma OverlappingRanges()
    ensures Run(Sources(AsReads(["1-3", "2-4"]), AsReads(["a", "b", "c", "d", "e"]))) == AsOks(["a", "b", "c", "d"])
  {
    var tokens := ["1-3", "2-4"];
    var texts := ["a", "b", "c", "d", "e"];
    var spans := [Span(1, 4), Span(2, 5)];
    ParseRangeAccepts();
    Token2To4();
    assert tokens[0] == "1-3" && tokens[1] == "2-4";
    assert forall i :: 0 <= i < |tokens| ==> ParseRange(tokens[i]) == Ok(spans[i]);
    SelectsCoveredLines(tokens, texts, spans);
    OverlappingSelection();
  }

  /** Range `1` over a one-line source selects that line. */
  lemma SingleLineSource()
    ensures Run(Sources(AsReads(["1"]), AsReads(["a"]))) == [Ok("a")]
  {
    var tokens := ["1"];
    var texts := ["a"];
    ParseSingleText("1", 1);
    SelectsCoveredLines(tokens, texts, [Span(1, 2)]);
    assert Selection(["a"], [Span(1, 2)]) == ["a"];
  }

  /** Range `5` over three lines selects nothing and ends without an error. */
  lemma RangeBeyondLines()
    ensures Run(Sources(AsReads(["5"]), AsReads(["a", "b", "c"]))) == []
  {
    var tokens := ["5"];
    var texts := ["a", "b", "c"];
    ParseSingleText("5", 5);
    SelectsCoveredLines(tokens, texts, [Span(5, 6)]);
    assert Selection(["a", "b", "c"], [Span(5, 6)]) == [];
  }

  /** Ranges `x`, `2` over lines `a`, `b`. */
  const ParseErrorSource := Sources([Read("x"), Read("2")], [Read("a"), Read("b")])

  /** The pulls over ranges `x`, `2` and lines `a`, `b`. */
  lemma ParseErrorPulls()
    ensures Pull(ParseErrorSource, Start) == (Cursor(1, 0, None, None), Some(Err(RangeParse)))
    ensures Pull(ParseErrorSource, Cursor(1, 0, None, None)) == (Cursor(2, 2, Some(Span(2, 3)), None), Some(Ok("b")))
    ensures Pull(ParseErrorSource, Cursor(2, 2, Some(Span(2, 3)), None)) == (Cursor(2, 2, Some(Span(2, 3)), None), None)
  {
    TokenX();
    ParseSingleText("2", 2);
  }

  /** A malformed token is one error item, not the end: the next pull reads
      the next token.  Only `collect` stops at the error. */
  lemma ParseErrorIsNotTerminal()
    ensures Run(ParseErrorSource) == [Err(RangeParse), Ok("b")]
    ensures Collect(Run(ParseErrorSource)) == Err(RangeParse)
  {
    var src := ParseErrorSource;
    ParseErrorPulls();
    assert Drain(src, Cursor(2, 2, Some(Span(2, 3)), None)) == [];
    assert Drain(src, Cursor(1, 0, None, None)) == [Ok("b")];
  }

  /** Ranges `1`, `x`, `2` over lines `a`, `b`. */
  const RangeErrorSource := Sources([Read("1"), Read("x"), Read("2")], [Read("a"), Read("b")])

  /** The pulls over ranges `1`, `x`, `2` and lines `a`, `b`: line `b`
      ends range `1`, the malformed `x` is an error item, and `b` is still
      pending when range `2` is read. */
  lemma RangeErrorKeepsLinePulls()
    ensures Pull(RangeErrorSource, Start) == (Cursor(1, 1, Some(Span(1, 2)), None), Some(Ok("a")))
    ensures Pull(RangeErrorSource, Cursor(1, 1, Some(Span(1, 2)), None))
         == (Cursor(2, 2, None, Some(NumberedLine(2, "b"))), Some(Err(RangeParse)))
    ensures Pull(RangeErrorSource, Cursor(2, 2, None, Some(NumberedLine(2, "b"))))
         == (Cursor(3, 2, Some(Span(2, 3)), None), Some(Ok("b")))
    ensures Pull(RangeErrorSource, Cursor(3, 2, Some(Span(2, 3)), None)) == (Cursor(3, 2, Some(Span(2, 3)), None), None)
  {
    ParseSingleText("1", 1);
    TokenX();
    ParseSingleText("2", 2);
  }

  /** A malformed token does not lose the pending line: over ranges `1`,
      `x`, `2` and lines `a`, `b`, line `b` is yielded after the error. */
  lemma RangeErrorKeepsLine()
    ensures Run(RangeErrorSource) == [Ok("a"), Err(RangeParse), Ok("b")]
  {
    var src := RangeErrorSource;
    RangeErrorKeepsLinePulls();
    assert Drain(src, Cursor(3, 2, Some(Span(2, 3)), None)) == [];
    assert Drain(src, Cursor(2, 2, None, Some(NumberedLine(2, "b")))) == [Ok("b")];
    assert Drain(src, Cursor(1, 1, Some(Span(1, 2)), None)) == [Err(RangeParse), Ok("b")];
  }

  /** A failed line read is one error item and still takes a line number:
      with range `4`, the fourth read is the one selected. */
  lemma FailedReadTakesLineNumber()
    ensures Run(Sources([Read("4")], [Read("a"), IoErr, Read("c"), Read("d")])) == [Err(TargetRead), Ok("d")]
  {
    var src := Sources([Read("4")], [Read("a"), IoErr, Read("c"), Read("d")]);
    ParseSingleText("4", 4);
    var c1 := Cursor(1, 2, Some(Span(4, 5)), None);
    assert Pull(src, Start) == (c1, Some(Err(TargetRead)));
    var c2 := Cursor(1, 4, Some(Span(4, 5)), None);
    assert Pull(src, c1) == (c2, Some(Ok("d")));
    assert Pull(src, c2) == (c2, None);
    assert Drain(src, c2) == [];
    assert Drain(src, c1) == [Ok("d")];
  }

  /** Range `1-5` over lines `a`, `b`, a failing read, `d`. */
  const MidStreamSource := Sources([Read("1-5")], [Read("a"), Read("b"), IoErr, Read("d")])

  /** The pulls over lines `a`, `b`, a failing read, `d` under range `1-5`. */
  lemma MidStreamPulls()
    ensures Pull(MidStreamSource, Start) == (Cursor(1, 1, Some(Span(1, 6)), None), Some(Ok("a")))
    ensures Pull(MidStreamSource, Cursor(1, 1, Some(Span(1, 6)), None)) == (Cursor(1, 2, Some(Span(1, 6)), None), Some(Ok("b")))
    ensures Pull(MidStreamSource, Cursor(1, 2, Some(Span(1, 6)), None)) == (Cursor(1, 3, Some(Span(1, 6)), None), Some(Err(TargetRead)))
    ensures Pull(MidStreamSource, Cursor(1, 3, Some(Span(1, 6)), None)) == (Cursor(1, 4, Some(Span(1, 6)), None), Some(Ok("d")))
    ensures Pull(MidStreamSource, Cursor(1, 4, Some(Span(1, 6)), None)) == (Cursor(1, 4, Some(Span(1, 6)), None), None)
  {
    Token1To5();
  }

  /** Lines `a`, `b`, a failing read, `d` under range `1-5`: the lines
      before the failure, one `TargetRead`, then the iterator goes on;
      collecting stops at the error. */
  lemma FailedReadMidStream()
    ensures Run(MidStreamSource) == [Ok("a"), Ok("b"), Err(TargetRead), Ok("d")]
    ensures Collect(Run(MidStreamSource)) == Err(TargetRead)
  {
    var src := MidStreamSource;
    MidStreamPulls();
    var span := Some(Span(1, 6));
    assert Drain(src, Cursor(1, 4, span, None)) == [];
    assert Drain(src, Cursor(1, 3, span, None)) == [Ok("d")];
    assert Drain(src, Cursor(1, 2, span, None)) == [Err(TargetRead), Ok("d")];
    assert Drain(src, Cursor(1, 1, span, None)) == [Ok("b"), Err(TargetRead), Ok("d")];
    var items := [Ok("a"), Ok("b"), Err(TargetRead), Ok("d")];
    assert Run(src) == items;
    assert Collect(items[2..]) == Err(TargetRead);
    assert items[1..][1..] == items[2..];
  }
}

=== FILE: bed_map_order.dfy ===
/** Ordering and termination facts about the merge iterator, for any
    inputs: sorted or not, with or without failing reads. */
module BedMapOrder {
  import opened Wrappers
  import opened Errors
  import opened RangeParse
  import opened BedMap

  /** Pulling from an exhausted state yields `None` and changes nothing, so
      draining it yields no items. */
  lemma ExhaustedStaysExhausted(src: Sources, c: Cursor)
    requires Valid(src, c) && Exhausted(src, c)
    ensures Pull(src, c) == (c, None)
    ensures Drain(src, c) == []
  {
  }

  /** Once `next` has returned `None`, every later call returns `None` too. */
  lemma PullAfterNone(src: Sources, c: Cursor)
    requires Valid(src, c) && Pull(src, c).1.None?
    ensures Pull(src, Pull(src, c).0) == (Pull(src, c).0, None)
  {
    ExhaustedStaysExhausted(src, Pull(src, c).0);
  }

  /** The pending range, if any, is the span parsed from the last token
      read: `cur_range` is only ever set from the token just read. */
  predicate FromLastToken(src: Sources, c: Cursor) {
    c.curRange.Some? ==>
      && 1 <= c.rpos <= |src.ranges|
      && src.ranges[c.rpos - 1].Read?
      && ParseRange(src.ranges[c.rpos - 1].text) == Ok(c.curRange.value)
  }

  /** `next` keeps the pending range tied to the last token read, whatever
      the input: malformed tokens, failed reads and unsorted ranges
      included. */
  lemma {:induction false} PullFromLastToken(src: Sources, c: Cursor)
    requires Valid(src, c) && FromLastToken(src, c)
    ensures FromLastToken(src, Pull(src, c).0)
    decreases LoopMeasure(src, c), 2
  {
    if c.curRange.Some? {
      PullLineFromLastToken(src, c);
    } else if c.rpos < |src.ranges| {
      match TokenSpan(src.ranges[c.rpos])
      case Ok(span) => GoodTokenFromLastToken(src, c, span);
      case Err(_) =>
    }
  }

  /** With the range slot empty, a token that parses to a span fills the
      slot and the call goes on to the second phase. */
  lemma PullOnGoodToken(src: Sources, c: Cursor, span: Span)
    requires Valid(src, c) && c.curRange.None? && c.rpos < |src.ranges|
    requires TokenSpan(src.ranges[c.rpos]) == Ok(span)
    ensures Valid(src, c.(rpos := c.rpos + 1, curRange := Some(span)))
    ensures Pull(src, c) == PullLine(src, c.(rpos := c.rpos + 1, curRange := Some(span)))
  {
  }

  /** A token that parses to a span becomes the pending range. */
  lemma {:induction false} GoodTokenFromLastToken(src: Sources, c: Cursor, span: Span)
    requires Valid(src, c) && c.curRange.None? && c.rpos < |src.ranges|
    requires TokenSpan(src.ranges[c.rpos]) == Ok(span)
    ensures FromLastToken(src, Pull(src, c).0)
    decreases LoopMeasure(src, c), 1
  {
    var c2 := c.(rpos := c.rpos + 1, curRange := Some(span));
    PullOnGoodToken(src, c, span);
    PullLineFromLastToken(src, c2);
  }

  lemma {:induction false} PullLineFromLastToken(src: Sources, c: Cursor)
    requires Valid(src, c) && c.curRange.Some? && FromLastToken(src, c)
    ensures FromLastToken(src, PullLine(src, c).0)
    decreases LoopMeasure(src, c), 1
  {
    if c.curLine.Some? {
      CompareFromLastToken(src, c);
    } else if c.lpos < |src.lines| && src.lines[c.lpos].Read? {
      var line := NumberedLine(c.lpos + 1, src.lines[c.lpos].text);
      CompareFromLastToken(src, c.(lpos := c.lpos + 1, curLine := Some(line)));
    }
  }

  lemma {:induction false} CompareFromLastToken(src: Sources, c: Cursor)
    requires Valid(src, c) && c.curRange.Some? && c.curLine.Some? && FromLastToken(src, c)
    ensures FromLastToken(src, Compare(src, c).0)
    decreases LoopMeasure(src, c), 0
  {
    var span, line := c.curRange.value, c.curLine.value;
    if line.num >= span.end {
      PullFromLastToken(src, c.(curRange := None));
    } else if line.num < span.start {
      PullFromLastToken(src, c.(curLine := None));
    }
  }

  /** For any input, a line that `next` yields lies in the span parsed
      from the last range token read, and is the line at its position. */
  lemma EmitsInsideLastToken(src: Sources, c: Cursor)
    requires Valid(src, c) && FromLastToken(src, c)
    ensures var r := Pull(src, c);
      r.1.Some? && r.1.value.Ok? ==>
        && 1 <= r.0.rpos <= |src.ranges|
        && src.ranges[r.0.rpos - 1].Read?
        && ParseRange(src.ranges[r.0.rpos - 1].text).Ok?
        && ParseRange(src.ranges[r.0.rpos - 1].text).value.Contains(r.0.lpos)
        && src.lines[r.0.lpos - 1] == Read(r.1.value.value)
  {
    PullFromLastToken(src, c);
  }

  /** One call from `c` that ended in `r` passed over no failure silently:
      every line it read and every token it read succeeded, except the one
      read whose failure is the error item `r` yields. */
  predicate SkipsNoFailure(src: Sources, c: Cursor, r: (Cursor, Option<Item>))
    requires r.0.rpos <= |src.ranges| && r.0.lpos <= |src.lines|
  {
    var lineFailed := r.1 == Some(Err(TargetRead));
    var tokenFailed := r.1.Some? && r.1.value.Err? && !lineFailed;
    var lineEnd := if lineFailed then r.0.lpos else r.0.lpos + 1;
    var tokenEnd := if tokenFailed then r.0.rpos - 1 else r.0.rpos;
    && (forall i :: 0 <= i && NextLineNo(c) <= i + 1 < lineEnd ==> src.lines[i].Read?)
    && (forall k :: c.rpos <= k < tokenEnd ==> TokenSpan(src.ranges[k]).Ok?)
  }

  /** For any input, one call of `next` never steps over a failed read or
      a malformed token without yielding it: every error becomes an item,
      and a call that yields a line or ends the iteration read nothing
      that failed. */
  lemma {:induction false} PullSkipsNoFailure(src: Sources, c: Cursor)
    requires Valid(src, c)
    ensures SkipsNoFailure(src, c, Pull(src, c))
    decreases LoopMeasure(src, c), 2
  {
    if c.curRange.Some? {
      PullLineSkipsNoFailure(src, c);
    } else if c.rpos < |src.ranges| {
      match TokenSpan(src.ranges[c.rpos])
      case Ok(span) => GoodTokenSkipsNoFailure(src, c, span);
      case Err(_) => BadTokenSkipsNoFailure(src, c);
    }
  }

  /** A token that parses to a span goes on to the second phase. */
  lemma {:induction false} GoodTokenSkipsNoFailure(src: Sources, c: Cursor, span: Span)
    requires Valid(src, c) && c.curRange.None? && c.rpos < |src.ranges|
    requires TokenSpan(src.ranges[c.rpos]) == Ok(span)
    ensures SkipsNoFailure(src, c, Pull(src, c))
    decreases LoopMeasure(src, c), 1
  {
    var c2 := c.(rpos := c.rpos + 1, curRange := Some(span));
    PullOnGoodToken(src, c, span);
    PullLineSkipsNoFailure(src, c2);
    SkipsPastGoodToken(src, c, c2, PullLine(src, c2));
  }

  /** A token that fails to read or parse leaves with its error at once:
      the call consumes that token and nothing else, and the line slot is
      left as it was. */
  lemma BadTokenSkipsNoFailure(src: Sources, c: Cursor)
    requires Valid(src, c) && c.curRange.None? && c.rpos < |src.ranges|
    requires TokenSpan(src.ranges[c.rpos]).Err?
    ensures Pull(src, c) == (c.(rpos := c.rpos + 1), Some(Err(TokenSpan(src.ranges[c.rpos]).error)))
    ensures SkipsNoFailure(src, c, Pull(src, c))
  {
    var e := TokenSpan(src.ranges[c.rpos]).error;
    var r := (c.(rpos := c.rpos + 1), Some(Err(e)));
    assert Pull(src, c) == r;
    SkipsOnlyBadToken(src, c, e);
  }

  /** Yielding a range error reads only the token that failed. */
  lemma SkipsOnlyBadToken(src: Sources, c: Cursor, e: BedMapError)
    requires Valid(src, c) && c.rpos < |src.ranges| && e != TargetRead
    ensures SkipsNoFailure(src, c, (c.(rpos := c.rpos + 1), Some(Err(e))))
  {
  }

  /** Reading a well-formed token adds nothing a call could have skipped. */
  lemma SkipsPastGoodToken(src: Sources, c: Cursor, c2: Cursor, r: (Cursor, Option<Item>))
    requires r.0.rpos <= |src.ranges| && r.0.lpos <= |src.lines|
    requires c.rpos < |src.ranges| && TokenSpan(src.ranges[c.rpos]).Ok?
    requires c2.rpos == c.rpos + 1 <= r.0.rpos && NextLineNo(c2) == NextLineNo(c)
    requires SkipsNoFailure(src, c2, r)
    ensures SkipsNoFailure(src, c, r)
  {
    var lineFailed := r.1 == Some(Err(TargetRead));
    var tokenFailed := r.1.Some? && r.1.value.Err? && !lineFailed;
    var tokenEnd := if tokenFailed then r.0.rpos - 1 else r.0.rpos;
    forall k | c.rpos < k < tokenEnd
      ensures TokenSpan(src.ranges[k]).Ok?
    {
      assert c2.rpos <= k;
    }
  }

  lemma {:induction false} PullLineSkipsNoFailure(src: Sources, c: Cursor)
    requires Valid(src, c) && c.curRange.Some?
    ensures SkipsNoFailure(src, c, PullLine(src, c))
    decreases LoopMeasure(src, c), 1
  {
    if c.curLine.Some? {
      CompareSkipsNoFailure(src, c);
    } else if c.lpos < |src.lines| && src.lines[c.lpos].Read? {
      var line := NumberedLine(c.lpos + 1, src.lines[c.lpos].text);
      CompareSkipsNoFailure(src, c.(lpos := c.lpos + 1, curLine := Some(line)));
    }
  }

  lemma {:induction false} CompareSkipsNoFailure(src: Sources, c: Cursor)
    requires Valid(src, c) && c.curRange.Some? && c.curLine.Some?
    ensures SkipsNoFailure(src, c, Compare(src, c))
    decreases LoopMeasure(src, c), 0
  {
    var span, line := c.curRange.value, c.curLine.value;
    if line.num >= span.end {
      PullSkipsNoFailure(src, c.(curRange := None));
    } else if line.num < span.start {
      PullSkipsNoFailure(src, c.(curLine := None));
    }
  }

  /** An error item empties only its own slot.  After a failed line read
      the pending range is still there; after a range error the pending
      line is still there, or, when the call began without a range, the
      line slot is exactly as the call found it. */
  predicate KeepsOtherSlot(c: Cursor, r: (Cursor, Option<Item>)) {
    match r.1
    case Some(Err(e)) =>
      if e == TargetRead then r.0.curRange.Some?
      else r.0.curLine.Some? || (c.curRange.None? && r.0.lpos == c.lpos && r.0.curLine == c.curLine)
    case _ => true
  }

  /** For any input, an error item from one call of `next` loses nothing
      from the other slot: the `return` inside `try_some!` leaves
      `cur_range` or `cur_line` as it stands, so the next call goes on
      with it. */
  lemma {:induction false} PullKeepsOtherSlot(src: Sources, c: Cursor)
    requires Valid(src, c)
    ensures KeepsOtherSlot(c, Pull(src, c))
    decreases LoopMeasure(src, c), 2
  {
    if c.curRange.Some? {
      PullLineKeepsOtherSlot(src, c);
    } else if c.rpos < |src.ranges| {
      match TokenSpan(src.ranges[c.rpos])
      case Ok(span) => GoodTokenKeepsOtherSlot(src, c, span);
      case Err(_) => BadTokenSkipsNoFailure(src, c);
    }
  }

  lemma {:induction false} GoodTokenKeepsOtherSlot(src: Sources, c: Cursor, span: Span)
    requires Valid(src, c) && c.curRange.None? && c.rpos < |src.ranges|
    requires TokenSpan(src.ranges[c.rpos]) == Ok(span)
    ensures KeepsOtherSlot(c, Pull(src, c))
    decreases LoopMeasure(src, c), 1
  {
    var c2 := c.(rpos := c.rpos + 1, curRange := Some(span));
    PullOnGoodToken(src, c, span);
    PullLineKeepsOtherSlot(src, c2);
  }

  lemma {:induction false} PullLineKeepsOtherSlot(src: Sources, c: Cursor)
    requires Valid(src, c) && c.curRange.Some?
    ensures KeepsOtherSlot(c, PullLine(src, c))
    decreases LoopMeasure(src, c), 1
  {
    if c.curLine.Some? {
      CompareKeepsOtherSlot(src, c);
    } else if c.lpos < |src.lines| && src.lines[c.lpos].Read? {
      var line := NumberedLine(c.lpos + 1, src.lines[c.lpos].text);
      CompareKeepsOtherSlot(src, c.(lpos := c.lpos + 1, curLine := Some(line)));
    }
  }

  lemma {:induction false} CompareKeepsOtherSlot(src: Sources, c: Cursor)
    requires Valid(src, c) && c.curRange.Some? && c.curLine.Some?
    ensures KeepsOtherSlot(c, Compare(src, c))
    decreases LoopMeasure(src, c), 0
  {
    var span, line := c.curRange.value, c.curLine.value;
    if line.num >= span.end {
      PullKeepsOtherSlot(src, c.(curRange := None));
    } else if line.num < span.start {
      PullKeepsOtherSlot(src, c.(curLine := None));
    }
  }

  /** The texts of the successful items, in order. */
  function Texts(items: seq<Item>): (texts: seq<string>)
    ensures |texts| <= |items|
  {
    if |items| == 0 then []
    else (if items[0].Ok? then [items[0].value] else []) + Texts(items[1..])
  }

  /** The line numbers of the lines the drain from `c` emits, in order. */
  ghost function Picks(src: Sources, c: Cursor): seq<nat>
    requires Valid(src, c)
    decreases Budget(src, c)
  {
    var (c1, next) := Pull(src, c);
    match next
    case None => []
    case Some(Ok(_)) => [c1.lpos] + Picks(src, c1)
    case Some(Err(_)) => Picks(src, c1)
  }

  /** `picks` are line numbers from `lo` on, strictly increasing, and the
      line at each of them reads as the matching entry of `texts`. */
  predicate Fits(src: Sources, lo: nat, picks: seq<nat>, texts: seq<string>) {
    && |picks| == |texts|
    && (forall k :: 0 <= k < |picks| ==>
          && lo <= picks[k] <= |src.lines|
          && 1 <= picks[k]
          && src.lines[picks[k] - 1] == Read(texts[k]))
    && (forall k, l :: 0 <= k < l < |picks| ==> picks[k] < picks[l])
  }

  lemma FitsCons(src: Sources, lo: nat, n: nat, t: string, picks: seq<nat>, texts: seq<string>)
    requires Fits(src, n + 1, picks, texts)
    requires 1 <= lo <= n <= |src.lines| && src.lines[n - 1] == Read(t)
    ensures Fits(src, lo, [n] + picks, [t] + texts)
  {
    var p, ts := [n] + picks, [t] + texts;
    forall k, l | 0 <= k < l < |p|
      ensures p[k] < p[l]
    {
      if k > 0 {
        assert p[k] == picks[k - 1] && p[l] == picks[l - 1];
      } else {
        assert p[l] == picks[l - 1];
      }
    }
  }

  lemma FitsLower(src: Sources, lo: nat, hi: nat, picks: seq<nat>, texts: seq<string>)
    requires lo <= hi && Fits(src, hi, picks, texts)
    ensures Fits(src, lo, picks, texts)
  {
  }

  /** The emitted texts are the lines at strictly increasing positions, all
      at or after the first line not yet passed: an in-order subsequence of
      the lines source in which no line appears twice. */
  lemma {:induction false} DrainIsSubsequence(src: Sources, c: Cursor)
    requires Valid(src, c)
    ensures Fits(src, NextLineNo(c), Picks(src, c), Texts(Drain(src, c)))
    decreases Budget(src, c)
  {
    var r := Pull(src, c);
    var c1 := r.0;
    DrainStep(src, c);
    PicksStep(src, c);
    if r.1.Some? {
      var item, rest := r.1.value, Drain(src, c1);
      var picks, texts := Picks(src, c1), Texts(rest);
      TextsCons(item, rest);
      DrainIsSubsequence(src, c1);
      if item.Ok? {
        FitsCons(src, NextLineNo(c), c1.lpos, item.value, picks, texts);
      } else {
        FitsLower(src, NextLineNo(c), NextLineNo(c1), picks, texts);
      }
    }
  }

  /** One pull's worth of `Picks`. */
  lemma PicksStep(src: Sources, c: Cursor)
    requires Valid(src, c)
    ensures var r := Pull(src, c);
      && (r.1.None? ==> Picks(src, c) == [])
      && (r.1.Some? && r.1.value.Ok? ==> Picks(src, c) == [r.0.lpos] + Picks(src, r.0))
      && (r.1.Some? && r.1.value.Err? ==> Picks(src, c) == Picks(src, r.0))
  {
  }

  lemma TextsCons(item: Item, rest: seq<Item>)
    ensures item.Ok? ==> Texts([item] + rest) == [item.value] + Texts(rest)
    ensures item.Err? ==> Texts([item] + rest) == Texts(rest)
  {
    assert ([item] + rest)[1..] == rest;
  }
}

=== FILE: bed_map_select.dfy ===
/** What `bed_map` selects when its inputs meet the merge's assumption:
    every token is a well-formed range, the ranges' starts never decrease,
    and no read fails.  The output is then exactly the lines whose number
    lies in one of the ranges, in line order, each once.  The assumption
    is the one the merge needs: a line below the pending range is dropped
    for good, which loses nothing only when no later range starts lower. */
module BedMapSelect {
  import opened Wrappers
  import opened RangeParse
  import opened BedMap

  /** Line `n` lies in one of `spans`. */
  predicate Covered(n: nat, spans: seq<Span>) {
    |spans| > 0 && (spans[0].Contains(n) || Covered(n, spans[1..]))
  }

  /** No span starts before an earlier one; spans may overlap or abut. */
  predicate Ascending(spans: seq<Span>) {
    forall i, j :: 0 <= i < j < |spans| ==> spans[i].start <= spans[j].start
  }

  /** The reference selection: the texts of the lines numbered `from` or
      more that lie in one of `spans`, in line order. */
  function SelectFrom(texts: seq<string>, spans: seq<Span>, from: nat): seq<string>
    requires 1 <= from
    decreases |texts| + 1 - from
  {
    if from > |texts| then []
    else (if Covered(from, spans) then [texts[from - 1]] else []) + SelectFrom(texts, spans, from + 1)
  }

  function Selection(texts: seq<string>, spans: seq<Span>): seq<string> {
    SelectFrom(texts, spans, 1)
  }

  /** A source that delivers every entry of `xs` without failing. */
  function AsReads(xs: seq<string>): (rs: seq<ReadResult>)
    ensures |rs| == |xs| && forall i :: 0 <= i < |xs| ==> rs[i] == Read(xs[i])
  {
    seq(|xs|, i requires 0 <= i < |xs| => Read(xs[i]))
  }

  function AsOks(texts: seq<string>): (items: seq<Item>)
    ensures |items| == |texts| && forall i :: 0 <= i < |texts| ==> items[i] == Ok(texts[i])
  {
    seq(|texts|, i requires 0 <= i < |texts| => Ok(texts[i]))
  }

  /** The read delivered a token that parses to `span`. */
  predicate Denotes(read: ReadResult, span: Span)
    ensures Denotes(read, span) ==> 1 <= span.start < span.end
  {
    read.Read? && ParseRange(read.text) == Ok(span)
  }

  lemma AsOksCons(t: string, texts: seq<string>)
    ensures AsOks([t] + texts) == [Ok(t)] + AsOks(texts)
  {
  }

  /** The input the merge assumes: tokens parsing to spans with
      non-decreasing starts, and lines that all read without failing. */
  predicate WellFormed(src: Sources, texts: seq<string>, spans: seq<Span>) {
    && src.lines == AsReads(texts)
    && |src.ranges| == |spans|
    && (forall i {:trigger Denotes(src.ranges[i], spans[i])} ::
          0 <= i < |spans| ==> Denotes(src.ranges[i], spans[i]))
    && Ascending(spans)
  }

  /** The index of the first span still able to select a line. */
  function LiveFrom(c: Cursor): nat {
    if c.curRange.Some? && 1 <= c.rpos then c.rpos - 1 else c.rpos
  }

  /** The pending range, if any, is the span of the last token read. */
  predicate Tracks(src: Sources, spans: seq<Span>, c: Cursor) {
    && Valid(src, c)
    && |src.ranges| == |spans|
    && (c.curRange.Some? ==> c.curRange.value == spans[c.rpos - 1])
  }

  /** The lines the cursor can still select. */
  function Pending(src: Sources, texts: seq<string>, spans: seq<Span>, c: Cursor): seq<string>
    requires Tracks(src, spans, c)
  {
    SelectFrom(texts, spans[LiveFrom(c)..], NextLineNo(c))
  }

  lemma {:induction false} SelectFromNothing(texts: seq<string>, from: nat)
    requires 1 <= from
    ensures SelectFrom(texts, [], from) == []
    decreases |texts| + 1 - from
  {
    if from <= |texts| {
      SelectFromNothing(texts, from + 1);
    }
  }

  /** A span that ends at or before `from` selects nothing from `from` on. */
  lemma {:induction false} SelectFromPassed(texts: seq<string>, spans: seq<Span>, from: nat)
    requires 1 <= from && |spans| > 0 && spans[0].end <= from
    ensures SelectFrom(texts, spans, from) == SelectFrom(texts, spans[1..], from)
    decreases |texts| + 1 - from
  {
    if from <= |texts| {
      SelectFromPassed(texts, spans, from + 1);
    }
  }

  /** A line before the start of the first of some spans with
      non-decreasing starts lies in none of them. */
  lemma {:induction false} NotCoveredBefore(n: nat, spans: seq<Span>)
    requires Ascending(spans)
    requires |spans| > 0 && n < spans[0].start
    ensures !Covered(n, spans)
  {
    if |spans| > 1 {
      assert spans[0].start <= spans[1].start;
      NotCoveredBefore(n, spans[1..]);
    }
  }

  /** One call of `next` on well-formed input yields the first pending line,
      or `None` when no line is pending. */
  predicate PullSelects(src: Sources, texts: seq<string>, spans: seq<Span>, c: Cursor, r: (Cursor, Option<Item>))
    requires Tracks(src, spans, c)
  {
    && Tracks(src, spans, r.0)
    && (r.1.None? ==> Pending(src, texts, spans, c) == [])
    && (r.1.Some? ==>
          && r.1.value.Ok?
          && Pending(src, texts, spans, c) == [r.1.value.value] + Pending(src, texts, spans, r.0))
  }

  lemma {:induction false} PullOnWellFormed(src: Sources, texts: seq<string>, spans: seq<Span>, c: Cursor)
    requires WellFormed(src, texts, spans) && Tracks(src, spans, c)
    ensures PullSelects(src, texts, spans, c, Pull(src, c))
    decreases LoopMeasure(src, c), 2
  {
    if c.curRange.Some? {
      PullLineOnWellFormed(src, texts, spans, c);
    } else if c.rpos == |src.ranges| {
      SelectFromNothing(texts, NextLineNo(c));
    } else {
      var c1 := c.(rpos := c.rpos + 1, curRange := Some(spans[c.rpos]));
      assert Denotes(src.ranges[c.rpos], spans[c.rpos]);
      ReadTokenStep(src, texts, spans, c);
      PullLineOnWellFormed(src, texts, spans, c1);
    }
  }

  /** Reading a well-formed token fills the range slot with its span and
      changes no pending line. */
  lemma ReadTokenStep(src: Sources, texts: seq<string>, spans: seq<Span>, c: Cursor)
    requires WellFormed(src, texts, spans) && Tracks(src, spans, c)
    requires c.curRange.None? && c.rpos < |src.ranges|
    requires Denotes(src.ranges[c.rpos], spans[c.rpos])
    ensures var c1 := c.(rpos := c.rpos + 1, curRange := Some(spans[c.rpos]));
      && Tracks(src, spans, c1)
      && Pull(src, c) == PullLine(src, c1)
      && Pending(src, texts, spans, c1) == Pending(src, texts, spans, c)
  {
  }

  lemma {:induction false} PullLineOnWellFormed(src: Sources, texts: seq<string>, spans: seq<Span>, c: Cursor)
    requires WellFormed(src, texts, spans) && Tracks(src, spans, c) && c.curRange.Some?
    ensures PullSelects(src, texts, spans, c, PullLine(src, c))
    decreases LoopMeasure(src, c), 1
  {
    if c.curLine.Some? {
      CompareOnWellFormed(src, texts, spans, c);
    } else if c.lpos < |src.lines| {
      var c1 := c.(lpos := c.lpos + 1, curLine := Some(NumberedLine(c.lpos + 1, texts[c.lpos])));
      assert PullLine(src, c) == Compare(src, c1);
      CompareOnWellFormed(src, texts, spans, c1);
    }
  }

  lemma {:induction false} CompareOnWellFormed(src: Sources, texts: seq<string>, spans: seq<Span>, c: Cursor)
    requires WellFormed(src, texts, spans) && Tracks(src, spans, c)
    requires c.curRange.Some? && c.curLine.Some?
    ensures PullSelects(src, texts, spans, c, Compare(src, c))
    decreases LoopMeasure(src, c), 0
  {
    var span, n := c.curRange.value, c.lpos;
    var live := spans[c.rpos - 1..];
    assert live[0] == span;
    assert texts[n - 1] == c.curLine.value.text;
    if n >= span.end {
      var c1 := c.(curRange := None);
      assert live[1..] == spans[c.rpos..];
      SelectFromPassed(texts, live, n);
      PullOnWellFormed(src, texts, spans, c1);
    } else if n >= span.start {
      assert Covered(n, live);
    } else {
      var c1 := c.(curLine := None);
      NotCoveredBefore(n, live);
      PullOnWellFormed(src, texts, spans, c1);
    }
  }

  lemma {:induction false} DrainOnWellFormed(src: Sources, texts: seq<string>, spans: seq<Span>, c: Cursor)
    requires WellFormed(src, texts, spans) && Tracks(src, spans, c)
    ensures Drain(src, c) == AsOks(Pending(src, texts, spans, c))
    decreases Budget(src, c)
  {
    var r := Pull(src, c);
    PullOnWellFormed(src, texts, spans, c);
    DrainStep(src, c);
    if r.1.Some? {
      DrainOnWellFormed(src, texts, spans, r.0);
      AsOksCons(r.1.value.value, Pending(src, texts, spans, r.0));
    }
  }

  /** For well-formed ranges whose starts never decrease and lines that
      all read, `bed_map` yields exactly the lines that lie in one of the
      ranges, in line order, each once, and no error.  Ranges may overlap. */
  lemma SelectsCoveredLines(tokens: seq<string>, texts: seq<string>, spans: seq<Span>)
    requires |tokens| == |spans|
    requires forall i :: 0 <= i < |tokens| ==> ParseRange(tokens[i]) == Ok(spans[i])
    requires Ascending(spans)
    ensures Run(Sources(AsReads(tokens), AsReads(texts))) == AsOks(Selection(texts, spans))
  {
    var src := Sources(AsReads(tokens), AsReads(texts));
    assert spans[0..] == spans;
    ReadsWellFormed(tokens, texts, spans);
    DrainOnWellFormed(src, texts, spans, Start);
  }

  lemma ReadsWellFormed(tokens: seq<string>, texts: seq<string>, spans: seq<Span>)
    requires |tokens| == |spans|
    requires forall i :: 0 <= i < |tokens| ==> ParseRange(tokens[i]) == Ok(spans[i])
    requires Ascending(spans)
    ensures WellFormed(Sources(AsReads(tokens), AsReads(texts)), texts, spans)
  {
    var src := Sources(AsReads(tokens), AsReads(texts));
    assert forall i :: 0 <= i < |spans| ==> Denotes(src.ranges[i], spans[i]);
  }
}

=== FILE: decimal.dfy ===
/** Rust's `usize::from_str` on a 64-bit target: an optional leading `+`,
    then one or more ASCII digits whose value fits in a `usize`. */
module Decimal {
  import opened Wrappers

  /** `usize::MAX` on a 64-bit target. */
  const USIZE_MAX: nat := 0xFFFF_FFFF_FFFF_FFFF

  predicate IsDigit(c: char) {
    '0' <= c <= '9'
  }

  predicate AllDigits(s: string) {
    forall i :: 0 <= i < |s| ==> IsDigit(s[i])
  }

  function DigitValue(c: char): nat
    requires IsDigit(c)
  {
    c as int - '0' as int
  }

  /** The base-10 value of a digit string, most significant digit first. */
  function Value(s: string): nat
    requires AllDigits(s)
  {
    if |s| == 0 then 0 else Value(s[..|s| - 1]) * 10 + DigitValue(s[|s| - 1])
  }

  /** `s.parse::<usize>()`, with the error payload dropped. */
  function ParseUsize(s: string): (r: Option<nat>)
    ensures r.Some? ==> r.value <= USIZE_MAX
    ensures r.Some? ==> s != [] && '-' !in s
  {
    var digits := if |s| > 0 && s[0] == '+' then s[1..] else s;
    if |digits| == 0 || !AllDigits(digits) || Value(digits) > USIZE_MAX then None
    else
      Some(Value(digits))
  }

  function Digit(d: nat): (c: char)
    requires d < 10
    ensures IsDigit(c) && DigitValue(c) == d
  {
    ('0' as int + d) as char
  }

  /** The canonical decimal text of `n`: no sign, no leading zeros. */
  function ShowNat(n: nat): (s: string)
    ensures 1 <= |s| && AllDigits(s)
    ensures s[0] != '+'
  {
    if n < 10 then [Digit(n)] else ShowNat(n / 10) + [Digit(n % 10)]
  }

  lemma {:induction false} ValueOfShowNat(n: nat)
    ensures Value(ShowNat(n)) == n
  {
    if n >= 10 {
      var s := ShowNat(n);
      assert s[..|s| - 1] == ShowNat(n / 10);
      ValueOfShowNat(n / 10);
    }
  }

  /** Printing a `usize` and parsing it back gives the same number. */
  lemma ParseShowNat(n: nat)
    requires n <= USIZE_MAX
    ensures ParseUsize(ShowNat(n)) == Some(n)
  {
    ValueOfShowNat(n);
  }

  /** Parsing is insensitive to one leading `+`, as `usize::from_str` is. */
  lemma ParsePlusSign(s: string)
    requires s == [] || s[0] != '+'
    ensures ParseUsize("+" + s) == ParseUsize(s)
  {
    assert ("+" + s)[1..] == s;
  }
}

=== FILE: errors.dfy ===
/** The four failure kinds of the line selector (src/lib.rs, `BedMapError`).
    The payloads the source carries (an I/O error, an integer-parse error)
    are opaque here, so each kind is a bare tag. */
module Errors {

  datatype BedMapError =
    | RangeRead     // reading a token from the ranges source failed
    | RangeParse    // a numeric field of a range token is not a `usize`
    | RangeFormat   // a range token breaks the structural rules
    | TargetRead    // reading a line from the lines source failed
}

=== FILE: range_parse.dfy ===
/** The range-token parser (`parse_range`, src/lib.rs:18-40).

    A token is `N` or `N-M`; it denotes the line numbers `N` through `M`
    inclusive (`M = N` for the short form), returned as the half-open
    interval `[N, M + 1)`. */
module RangeParse {
  import opened Wrappers
  import opened Errors
  import opened Decimal
  import opened DashSplit

  /** The half-open interval `[start, end)` of 1-based line numbers. */
  datatype Span = Span(start: nat, end: nat) {
    predicate Contains(n: nat) {
      start <= n < end
    }
  }

  /** The text before the first dash (the whole token when there is none). */
  function Head(token: string): string {
    if '-' in token then token[..FirstDash(token)] else token
  }

  /** The text after the first dash. */
  function Tail(token: string): string
    requires '-' in token
  {
    token[FirstDash(token) + 1..]
  }

  /** The token has a second dash after the first one. */
  predicate ManyDashes(token: string) {
    '-' in token && '-' in Tail(token)
  }

  /** `range.split('-').fuse().take(3).collect()`: at most three fields. */
  function Fields(token: string): (fields: seq<string>)
    ensures 1 <= |fields| <= 3
    ensures fields[0] == Head(token)
    ensures |fields| == 1 <==> '-' !in token
    ensures |fields| == 2 ==> fields[1] == Tail(token)
    ensures |fields| == 3 <==> ManyDashes(token)
  {
    var all := Split(token);
    assert '-' in token ==> all == [Head(token)] + Split(Tail(token));
    if |all| <= 3 then all else all[..3]
  }

  /** The checks of `parse_range`, in the source's order, yielding the
      inclusive bounds `(start, end)` before the final `end + 1`. */
  function ParseBounds(token: string): (r: Result<(nat, nat), BedMapError>)
    ensures r.Ok? ==> 1 <= r.value.0 <= r.value.1 <= USIZE_MAX
    ensures r.Err? ==> r.error == RangeFormat || r.error == RangeParse
  {
    var fields := Fields(token);
    // `fields.is_empty()` cannot hold: a split yields at least one field.
    if |fields| == 0 || fields[0] == "" || |fields| > 2 then Err(RangeFormat)
    else
      var start := ParseUsize(fields[0]);
      if start.None? then Err(RangeParse)
      else if |fields| > 1 && fields[1] == "" then Err(RangeFormat)
      else
        var end := if |fields| > 1 then ParseUsize(fields[1]) else start;
        if end.None? then Err(RangeParse)
        else if start.value == 0 || end.value < start.value then Err(RangeFormat)
        else Ok((start.value, end.value))
  }

  /** `parse_range` with the exclusive end computed without overflow; the
      rest of the model uses this version. */
  function ParseRange(token: string): (r: Result<Span, BedMapError>)
    ensures r.Ok? ==> 1 <= r.value.start < r.value.end <= USIZE_MAX + 1
    ensures r.Err? ==> r.error == RangeFormat || r.error == RangeParse
  {
    match ParseBounds(token)
    case Ok((start, end)) => Ok(Span(start, end + 1))
    case Err(e) => Err(e)
  }

  /** `parse_range` as written: `end + 1` on a `usize`, which wraps to 0
      when `end` is `usize::MAX` (the behaviour of a release build). */
  function ParseRangeAsWritten(token: string): (r: Result<Span, BedMapError>)
    ensures r.Ok? ==> 1 <= r.value.start && r.value.end <= USIZE_MAX
    ensures ParseBounds(token).Ok? <==> r.Ok?
  {
    match ParseBounds(token)
    case Ok((start, end)) => Ok(Span(start, (end + 1) % (USIZE_MAX + 1)))
    case Err(e) => Err(e)
  }

  /** The token `18446744073709551615` passes every check, yet the wrapped
      exclusive end is 0, so the returned interval is empty. */
  lemma AsWrittenOverflows(n: nat)
    requires n == USIZE_MAX
    ensures ParseRangeAsWritten(ShowNat(n)) == Ok(Span(n, 0))
    ensures ParseRange(ShowNat(n)) == Ok(Span(n, n + 1))
  {
    ParseRangeSingle(n);
    AsWrittenWraps(ShowNat(n));
  }

  /** The two parsers differ only in how the exclusive end is computed. */
  lemma AsWrittenWraps(token: string)
    ensures ParseRangeAsWritten(token) ==
      match ParseRange(token)
      case Ok(sp) => Ok(Span(sp.start, sp.end % (USIZE_MAX + 1)))
      case Err(e) => Err(e)
  {
  }

  /** Below `usize::MAX` the as-written parser and the model agree. */
  lemma AsWrittenAgreesBelowMax(token: string)
    requires ParseRange(token).Ok? ==> ParseRange(token).value.end <= USIZE_MAX
    ensures ParseRangeAsWritten(token) == ParseRange(token)
  {
  }

  /** `"N"` with `N >= 1` parses to `[N, N + 1)`. */
  lemma ParseRangeSingle(n: nat)
    requires 1 <= n <= USIZE_MAX
    ensures ParseRange(ShowNat(n)) == Ok(Span(n, n + 1))
  {
    ParseShowNat(n);
    ParseSingleText(ShowNat(n), n);
  }

  /** Two numbers around one dash, `1 <= N <= M`, parse to `[N, M + 1)`,
      whatever their spelling (a `+` sign, leading zeros). */
  lemma ParsePairText(a: string, b: string, n: nat, m: nat)
    requires ParseUsize(a) == Some(n) && ParseUsize(b) == Some(m)
    requires 1 <= n <= m
    ensures ParseRange(a + "-" + b) == Ok(Span(n, m + 1))
  {
    var token := a + "-" + b;
    FirstDashAfter(a, b);
    assert token[..|a|] == a;
    assert token[|a| + 1..] == b;
    assert !ManyDashes(token);
    assert Fields(token) == [a, b];
  }

  /** `"N-M"` with `1 <= N <= M` parses to `[N, M + 1)`. */
  lemma ParseRangePair(n: nat, m: nat)
    requires 1 <= n <= m <= USIZE_MAX
    ensures ParseRange(ShowNat(n) + "-" + ShowNat(m)) == Ok(Span(n, m + 1))
  {
    ParseShowNat(n);
    ParseShowNat(m);
    ParsePairText(ShowNat(n), ShowNat(m), n, m);
  }

  /** The canonical token of a span: `N` for a one-line span, `N-M` otherwise. */
  function ShowSpan(sp: Span): string
    requires 1 <= sp.start < sp.end
  {
    if sp.end == sp.start + 1 then ShowNat(sp.start)
    else ShowNat(sp.start) + "-" + ShowNat(sp.end - 1)
  }

  /** Every span the parser can return is printed and parsed back unchanged. */
  lemma ParseShowSpan(sp: Span)
    requires 1 <= sp.start < sp.end <= USIZE_MAX + 1
    ensures ParseRange(ShowSpan(sp)) == Ok(sp)
  {
    if sp.end == sp.start + 1 {
      assert ShowSpan(sp) == ShowNat(sp.start);
      ParseRangeSingle(sp.start);
    } else {
      assert ShowSpan(sp) == ShowNat(sp.start) + "-" + ShowNat(sp.end - 1);
      ParseRangePair(sp.start, sp.end - 1);
    }
  }

  /** The accepted tokens, stated on the raw text: one number `N >= 1`, or
      two numbers `N-M` around a single dash with `1 <= N <= M`. */
  lemma ParseRangeOk(token: string, a: nat, b: nat)
    ensures ParseRange(token) == Ok(Span(a, b)) <==>
      1 <= a < b &&
      (|| ('-' !in token && ParseUsize(token) == Some(a) && b == a + 1)
       || ('-' in token && ParseUsize(Head(token)) == Some(a)
           && ParseUsize(Tail(token)) == Some(b - 1)))
  {
    // The term `Fields(token)` brings the field facts of `Fields` into the proof.
    assert 1 <= |Fields(token)| <= 3;
    if '-' in token && ParseUsize(Tail(token)).Some? {
      assert !ManyDashes(token);
    }
  }

  /** The token breaks a structural rule: the first field is empty, there
      are more than two fields, the second field is empty, the start is 0,
      or the end is below the start.  The emptiness and count checks come
      first; the rest only apply once the start field has parsed. */
  predicate Malformed(token: string) {
    || Head(token) == ""
    || ManyDashes(token)
    || (ParseUsize(Head(token)).Some? &&
        (|| ('-' !in token && ParseUsize(token).value == 0)
         || ('-' in token && Tail(token) == "")
         || ('-' in token && ParseUsize(Tail(token)).Some? &&
             (ParseUsize(Head(token)).value == 0
              || ParseUsize(Tail(token)).value < ParseUsize(Head(token)).value))))
  }

  /** A numeric field fails to parse: the start field (checked before the
      emptiness of the second field), or a non-empty second field. */
  predicate BadNumber(token: string) {
    && Head(token) != ""
    && !ManyDashes(token)
    && (|| ParseUsize(Head(token)).None?
        || ('-' in token && Tail(token) != "" && ParseUsize(Tail(token)).None?))
  }

  lemma ParseRangeFormat(token: string)
    ensures ParseRange(token) == Err(RangeFormat) <==> Malformed(token)
  {
    // The term `Fields(token)` brings the field facts of `Fields` into the proof.
    assert 1 <= |Fields(token)| <= 3;
  }

  lemma ParseRangeParse(token: string)
    ensures ParseRange(token) == Err(RangeParse) <==> BadNumber(token)
  {
    // The term `Fields(token)` brings the field facts of `Fields` into the proof.
    assert 1 <= |Fields(token)| <= 3;
  }

  /** The accepted tokens of the source's unit test. */
  lemma ParseRangeAccepts()
    ensures ParseRange("1-3") == Ok(Span(1, 4))
    ensures ParseRange("1") == Ok(Span(1, 2))
  {
    ParsePairText("1", "3", 1, 3);
    assert "1-3" == "1" + "-" + "3";
  }

  /** One number `N >= 1`, however spelled, parses to `[N, N + 1)`. */
  lemma ParseSingleText(a: string, n: nat)
    requires ParseUsize(a) == Some(n) && 1 <= n
    ensures ParseRange(a) == Ok(Span(n, n + 1))
  {
    assert Fields(a) == [a];
  }

  /** Tokens with an empty field or an extra field are `RangeFormat`. */
  lemma ParseRangeRejectsFields()
    ensures ParseRange("1-") == Err(RangeFormat)
    ensures ParseRange("-1") == Err(RangeFormat)
    ensures ParseRange("") == Err(RangeFormat)
  {
  }

  /** More than two fields is `RangeFormat`, whatever the fields hold. */
  lemma ParseRangeRejectsExtraField()
    ensures ParseRange("1-2-3") == Err(RangeFormat)
  {
    ParseRangeFormat("1-2-3");
  }

  /** A zero start or a reversed pair is `RangeFormat`. */
  lemma ParseRangeRejectsBounds()
    ensures ParseRange("0") == Err(RangeFormat)
    ensures ParseRange("5-3") == Err(RangeFormat)
  {
  }

  /** A field that is not a number is `RangeParse`, even when a later
      structural check would also fail. */
  lemma ParseRangeRejectsNumbers()
    ensures ParseRange("x") == Err(RangeParse)
    ensures ParseRange("1-x") == Err(RangeParse)
    ensures ParseRange("x-") == Err(RangeParse)
    ensures ParseRange("0-x") == Err(RangeParse)
  {
  }
}

=== FILE: split.dfy ===
/** Rust's `str::split('-')`: the fields between the dashes of a token,
    always at least one, including empty ones. */
module DashSplit {

  /** Position of the first `-` in `s`. */
  function FirstDash(s: string): (i: nat)
    requires '-' in s
    ensures i < |s| && s[i] == '-' && '-' !in s[..i]
  {
    if s[0] == '-' then 0
    else
      var i := 1 + FirstDash(s[1..]);
      assert s[..i] == [s[0]] + s[1..][..i - 1];
      i
  }

  function Split(s: string): (fields: seq<string>)
    ensures 1 <= |fields|
    ensures |fields| == 1 <==> '-' !in s
    decreases |s|
  {
    if '-' !in s then [s]
    else
      var i := FirstDash(s);
      [s[..i]] + Split(s[i + 1..])
  }

  /** The inverse of `Split`: the fields glued back together with dashes. */
  function Join(fields: seq<string>): string
    requires 1 <= |fields|
  {
    if |fields| == 1 then fields[0] else fields[0] + "-" + Join(fields[1..])
  }

  lemma {:induction false} FirstDashAfter(a: string, b: string)
    requires '-' !in a
    ensures '-' in a + "-" + b && FirstDash(a + "-" + b) == |a|
  {
    var s := a + "-" + b;
    assert s[|a|] == '-';
    if a != [] {
      assert s[1..] == a[1..] + "-" + b;
      FirstDashAfter(a[1..], b);
    }
  }

  /** Splitting peels off the text before the first dash as one field. */
  lemma SplitAfterDash(a: string, b: string)
    requires '-' !in a
    ensures Split(a + "-" + b) == [a] + Split(b)
  {
    var s := a + "-" + b;
    FirstDashAfter(a, b);
    assert s[..|a|] == a;
    assert s[|a| + 1..] == b;
  }

  /** A token is the text before a dash, the dash, and the text after. */
  lemma CutAtDash(s: string, i: nat)
    requires i < |s| && s[i] == '-'
    ensures s == s[..i] + "-" + s[i + 1..]
  {
  }

  lemma JoinCons(field: string, rest: seq<string>)
    requires 1 <= |rest|
    ensures Join([field] + rest) == field + "-" + Join(rest)
  {
    assert ([field] + rest)[1..] == rest;
  }

  lemma {:induction false} JoinSplit(s: string)
    ensures Join(Split(s)) == s
    decreases |s|
  {
    if '-' in s {
      var i := FirstDash(s);
      var rest := s[i + 1..];
      CutAtDash(s, i);
      JoinSplit(rest);
      JoinCons(s[..i], Split(rest));
    }
  }

  lemma {:induction false} SplitJoin(fields: seq<string>)
    requires 1 <= |fields|
    requires forall k :: 0 <= k < |fields| ==> '-' !in fields[k]
    ensures Split(Join(fields)) == fields
  {
    if |fields| > 1 {
      var rest := fields[1..];
      assert forall k :: 0 <= k < |rest| ==> rest[k] == fields[k + 1];
      SplitJoin(rest);
      assert '-' !in fields[0];
      SplitAfterDash(fields[0], Join(rest));
      assert fields == [fields[0]] + rest;
    }
  }

  /** No field contains the separator. */
  lemma {:induction false} SplitFieldsHaveNoDash(s: string)
    ensures forall k :: 0 <= k < |Split(s)| ==> '-' !in Split(s)[k]
    decreases |s|
  {
    if '-' in s {
      var i := FirstDash(s);
      SplitFieldsHaveNoDash(s[i + 1..]);
    }
  }
}

=== FILE: wrappers.dfy ===
/** Optional values and fallible results, shaped after Rust's `Option` and `Result`. */
module Wrappers {

  datatype Option<+T> = None | Some(value: T)

  datatype Result<+T, +E> = Ok(value: T) | Err(error: E)
}
